=== FILE: README.md ===
# Product CRUD service and user service — a Dafny model

This project models the two pieces of decision logic in a small Spring REST
backend for products ("Producto") and users.

- **User service** (`UserServiceImpl`): the user table is a map from email to
  `User` (id, first name, last name, email, password, role). The store's
  unique constraint on email becomes the invariant `KeyedByEmail`: each
  account sits under its own email. `add`, `findAll`, `deleteByEmail`,
  `findByEmail` and `update` are pure functions (or, for `findAll`, a method)
  from the store before the call to the result and the store after it.
  Exceptions are `Raised(UsernameNotFoundException(..))` values, and a null
  return is `None`. The password encoder is the tag `Encoded(raw, salt)`. The
  salt is a parameter, because the encoder is salted and not a function of
  the raw password. `Matches` stands for the encoder's `matches`.
- **Product controller** (`ProductoController`): each endpoint is a pure
  function. Its inputs are the request and what the collaborators answered:
  found, null or threw for the service, the generated code or an
  IOException for the upload utility, and the resource, null or an exception
  for the download utility. It returns an `Exchange`. That holds the
  collaborator calls made, in order, and an `Outcome`. The outcome is a
  response (status, headers, body), the null response a handler returns when
  it never assigned one, or an exception that escapes the handler.

Three behaviours of the controller are kept as the code has them:
- `save` at ProductoController.java:236 and :311 runs outside the `try`.
  A store failure therefore escapes the handler, and the 500 `errorGrave`
  answer is never produced. The contracts say the only statuses are 201/400
  for insert and 200/400 for update.
- A null save result leaves the response null (`NullResponse`), because the
  `else` branches at :247-251 and :322-326 assign nothing.
- In the paged branch of `findAll`, `PageRequest.of` (:93) throws
  IllegalArgumentException inside the `try` when the page is negative or
  the size is below one. That answers 400 before any query is sent. The
  model states the two conditions explicitly (`PageRequestAccepts`).

## Model

| member | source | states |
|---|---|---|
| `UserService.Encode` | src/main/java/com/example/user/UserServiceImpl.java:31 | an encoded password matches the raw password it was made from |
| `UserService.AddIsSalted` | src/main/java/com/example/user/UserServiceImpl.java:31-32 | the encoder is salted: adding one user under two different salts stores two different passwords, and both match the supplied one |
| `UserService.Add` | src/main/java/com/example/user/UserServiceImpl.java:20-33 | a duplicate email returns null and leaves the store unchanged; a fresh email stores the user with names, email and role as supplied, the store's id, and a password that matches the supplied one; no other entry changes |
| `UserService.FindAll` | src/main/java/com/example/user/UserServiceImpl.java:36-38 | the list holds exactly the stored users, one per entry; under the email constraint no two share an email |
| `UserService.DeleteByEmail` | src/main/java/com/example/user/UserServiceImpl.java:41-43 | the entry for that email is gone and every other entry is unchanged |
| `UserService.FindByEmail` | src/main/java/com/example/user/UserServiceImpl.java:46-51 | returns the stored user exactly when the email is present, otherwise raises not-found with the email in the message |
| `UserService.Update` | src/main/java/com/example/user/UserServiceImpl.java:54-67 | an unknown email raises not-found and writes nothing; otherwise names and role come from the argument, the password matches the new one, id and email are kept, and no other entry changes |
| `UserService.KeyedByEmailMeansUniqueEmails` | src/main/java/com/example/user/User.java:35-37 | keying by email means two stored accounts with the same email are the same account |
| `UserService.AddPreservesValid` | src/main/java/com/example/user/UserServiceImpl.java:21-32 | add keeps every account under its own email and stores no plaintext password |
| `UserService.UpdatePreservesValid` | src/main/java/com/example/user/UserServiceImpl.java:56-64 | update keeps every account under its own email and stores no plaintext password |
| `UserService.DeleteByEmailPreservesValid` | src/main/java/com/example/user/UserServiceImpl.java:41-43 | deleteByEmail keeps the store invariant |
| `UserService.SecondAddWithSameEmailRejected` | src/main/java/com/example/user/UserServiceImpl.java:21-28 | a second add with an email already used returns null and creates no second row |
| `UserService.AddThenFindByEmail` | src/main/java/com/example/user/UserServiceImpl.java:21-51 | after a successful add, findByEmail returns the added user, whose password matches the supplied one |
| `UserService.DeleteThenFindByEmail` | src/main/java/com/example/user/UserServiceImpl.java:41-51 | after deleteByEmail, findByEmail of that email raises not-found |
| `UserService.UpdateKeepsIdentities` | src/main/java/com/example/user/UserServiceImpl.java:56-64 | update never changes the set of emails, nor any stored account's email or id |
| `ProductoController.FindAll` | src/main/java/com/example/controllers/ProductoController.java:86-118 | the paged query, with the requested page and size, is issued only when both are given and `PageRequest.of` accepts them, and no query is sent when it rejects them; otherwise the whole list sorted by `nombre` is fetched; a failure answers 400 when paged and 204 when not; 200 carries exactly the service's list |
| `ProductoController.FindById` | src/main/java/com/example/controllers/ProductoController.java:136-159 | 200 with keys `mensaje` and `producto` exactly when found, 404 with `error` exactly when null, 500 with `error` exactly when the service throws |
| `ProductoController.DefaultMessages` | src/main/java/com/example/controllers/ProductoController.java:198-204 | one message per validation error, each error's default message, in order |
| `ProductoController.Insert` | src/main/java/com/example/controllers/ProductoController.java:196-263 | validation errors answer 400 with every message in order and make no call; a non-empty file is stored first, and its IOException escapes with no further call; otherwise the calls are exactly that file store and one save of the product, whose image is `code-originalName` for a file and unchanged without one; the file info carries the same name and the download URI; 201 exactly when the save returns a product; a null save result gives a null response; a save failure escapes, so 500 never occurs |
| `ProductoController.Update` | src/main/java/com/example/controllers/ProductoController.java:289-338 | validation errors answer 400 and save nothing; otherwise exactly one save, of the body with the path id bound and everything else unchanged; 200 with `mensaje` and `producto` exactly when the save returns a product; null gives a null response; a save failure escapes |
| `ProductoController.Delete` | src/main/java/com/example/controllers/ProductoController.java:348-360 | the calls are the lookup, then a delete of exactly the product found and only when found; 204 with no body when the delete succeeds; 404 with no body and no delete when not found; a failure of the lookup or of the delete escapes |
| `ProductoController.DownloadFile` | src/main/java/com/example/controllers/ProductoController.java:373-389 | an IOException answers 500 with no body and no headers, other exceptions escape, a null resource answers 404 with the body "File not found " and no headers, a resource answers 200 as an octet-stream attachment with that resource's file name |
| `ProductoController.ContentDisposition` | src/main/java/com/example/controllers/ProductoController.java:384 | the header value is `attachment; filename="`, then the file name unchanged, then a closing quote |
| `ProductoController.StoredName` | src/main/java/com/example/controllers/ProductoController.java:221 | the stored name is the code, then a dash, then the original name |
| `ProductoController.StoredNameDeterminesParts` | src/main/java/com/example/controllers/ProductoController.java:220-221 | for codes of one length the stored name determines both code and original name, so distinct codes never collide |
| `ProductoController.DownloadRoute` | src/main/java/com/example/controllers/ProductoController.java:368-369 | a bound file code is a single non-empty, slash-free segment after `/productos/downloadFile/` |
| `ProductoController.InsertedFileIsDownloadable` | src/main/java/com/example/controllers/ProductoController.java:218-236 | for a code and file name made only of RFC 3986 path-segment characters other than `;` (letters, digits, `-._~!$&'()*+,=:@`), the download URI that insert returns routes to the download endpoint with the stored name, and that name is the image path saved with the product |
| `ProductoController.DownloadRouteBindsSegment` | src/main/java/com/example/controllers/ProductoController.java:368-369 | every single non-empty, slash-free segment after the prefix is bound as the file code |
| `ProductoController.ReadQuoted` | src/main/java/com/example/controllers/ProductoController.java:384 | a client's reading of the quoted file name: without backslashes, a name is read exactly when a closing quote exists, and it is the text before the first quote |
| `ProductoController.ContentDispositionRoundTrip` | src/main/java/com/example/controllers/ProductoController.java:384 | a client reading the attachment header gets back exactly the resource's file name, when that name is printable ASCII (space to `~`) without quote or backslash |
| `ProductoController.ReadQuotedPlainName` | src/main/java/com/example/controllers/ProductoController.java:384 | a name without quote or backslash, followed by a quote, is read back whole whatever follows |
| `ProductoController.QuoteInNameCutsItShort` | src/main/java/com/example/controllers/ProductoController.java:384 | the header escapes nothing, so a client offered the file `a".png` reads its name as `a` |
| `ProductoController.FoundMessageNamesId` | src/main/java/com/example/controllers/ProductoController.java:140-142 | the findById success message ends with the requested id rendered in decimal, and distinct ids give distinct messages |
| `ProductoController.FindAllConsultsOneQuery` | src/main/java/com/example/controllers/ProductoController.java:88-118 | the paged branch ignores the unpaged query's answer, and the unpaged branch ignores the paged one's |
| `ProductoController.UpdateIgnoresBodyId` | src/main/java/com/example/controllers/ProductoController.java:309-311 | the path id replaces any id the body carried, so the body's id never changes the outcome |
| `ProductoController.DeleteAgreesWithFindById` | src/main/java/com/example/controllers/ProductoController.java:136-159 | on one lookup result, delete answers 404 exactly when findById does, deletes exactly the product findById shows with its 200, and writes nothing otherwise |
| `Decimal.ToString` | src/main/java/com/example/controllers/ProductoController.java:140-148 | the id as Java renders it: a minus sign exactly for negative ids, then decimal digits |
| `Decimal.NatToDigits` | src/main/java/com/example/controllers/ProductoController.java:140 | the decimal digits of a number: at least one digit, and no leading zero unless the number is zero |
| `Decimal.DigitsRoundTrip` | src/main/java/com/example/controllers/ProductoController.java:140 | reading the rendered digits back gives the number |
| `Decimal.ToStringInjective` | src/main/java/com/example/controllers/ProductoController.java:140-148 | distinct ids render as distinct strings in the findById messages |

## Left out

- Persistence: the product service and the DAO's JPQL queries, fetch joins and paging/count semantics are outside the model. Their answers are parameters: the paged and sorted lists, the lookup result, and the save and delete outcomes.
- `UserService.Add`: the id is the `generatedId` parameter, standing for the store's identity generation. JPA's merge when a request already carries an id is not modelled.
- File storage (`FileUploadUtil`, `FileDownloadUtil`) is not part of this model. This covers filesystem I/O, random code generation and path resolution. The generated code, its IOException and the resource lookup are parameters.
- `ProductoController.StoredNameDeterminesParts`: this needs all codes to have the same length. The upload utility's codes are assumed to have one length; that utility is not part of this model.
- `ProductoController.InsertedFileIsDownloadable`: this assumes the code and the original file name use only letters, digits and `-._~!$&'()*+,=:@`. These are the path-segment characters of section 3.3 of RFC 3986, minus `;`. The URI at ProductoController.java:228 is not percent-encoded, so other characters do not arrive unchanged. A `/` starts a new segment, and a `?` or `#` ends the path. Spring drops what follows a `;`, and `%` escapes get decoded. A browser turns `\` into `/`. The embedded server refuses a request target that holds a space, a control character, non-ASCII text or any of `"`, `<`, `>`, `^`, a backtick, `{`, `|` or `}` before routing. `DownloadRoute` works on the path after this URL parsing, which is not modelled.
- `ProductoController.ContentDispositionRoundTrip`: this holds only for printable ASCII names (space to `~`) without `"` or `\`. The embedded server writes header values as ISO-8859-1. It turns control characters into spaces and drops a header that holds a character above U+00FF. Header writing is not modelled. The header at ProductoController.java:384 escapes nothing, and the stored name carries the client's original filename. `QuoteInNameCutsItShort` shows a name that a client reads back cut short.
- Transactions: the `@Transactional` rollback after an escaping exception is not modelled. An `Exchange` lists the calls that were made, not whether they were rolled back.
- User store failures: the model's user store never fails. In the code, the repository's `findByEmail`, `save` and `deleteByEmail` can throw, and `UserServiceImpl` catches nothing, so such an exception would escape every operation.
- `UserService.SecondAddWithSameEmailRejected`: this holds for calls made one after another. `add` checks for the email and then saves, and the two steps are not atomic. Two concurrent adds of one email can both pass the check; the second then fails on the store's unique constraint with an exception instead of returning null. Concurrency is not modelled.
- Emails are compared as exact strings. Case folding or trimming by the database collation is not modelled.
- Security configuration (`SecurityConfig`): URL authorization, basic auth and BCrypt itself are library behaviour. Only the salted encoder is modelled, as a tag.
- Producto fields: price, creation date and the `Presentacion` relation are not modelled, because the controller never reads or writes them. The entity class is not part of this model.
- Nulls: nulls inside requests (null strings, null role, null original filename) are not modelled. Java int overflow of path ids is not modelled either; Spring rejects such ids before the handler runs.
- HTTP routing, JSON serialisation, bean validation annotations and dependency injection are framework behaviour. Validation results come in as the list of `ObjectError`s.

=== FILE: common.dfy ===
/** Vocabulary shared by the user service and the product controller:
    Java's nullable references, the exception classes the modelled code
    raises or catches, and the outcome of a call that returns or throws. */
module Common {

  /** A Java reference that may be null: `None` is null. */
  datatype Option<+T> = None | Some(value: T)

  /** The exceptions the modelled code tells apart: IOException (caught by
      the download endpoint), the user service's not-found exception with its
      message, and every other exception. */
  datatype Exception =
    | IOException
    | UsernameNotFoundException(message: string)
    | OtherException

  /** What one Java call did: returned a value, or threw. */
  datatype Result<+T> = Ok(value: T) | Raised(error: Exception)
}

=== FILE: decimal.dfy ===
/** Java's decimal rendering of an integer, as used when a number is
    concatenated onto a string (`"... con id: " + id`). */
module Decimal {

  predicate IsDigit(c: char) {
    '0' <= c <= '9'
  }

  predicate AllDigits(s: string) {
    forall i | 0 <= i < |s| :: IsDigit(s[i])
  }

  function DigitChar(d: nat): (c: char)
    requires d < 10
    ensures IsDigit(c)
    ensures c as int - '0' as int == d
  {
    ('0' as int + d) as char
  }

  function DigitValue(c: char): (d: nat)
    requires IsDigit(c)
    ensures d < 10
    ensures DigitChar(d) == c
  {
    c as int - '0' as int
  }

  /** The digits of `n`, most significant first, without leading zeros. */
  function NatToDigits(n: nat): (s: string)
    ensures |s| >= 1
    ensures AllDigits(s)
    ensures s[0] == '0' <==> n == 0
    ensures n == 0 ==> s == "0"
    decreases n
  {
    if n < 10 then [DigitChar(n)] else NatToDigits(n / 10) + [DigitChar(n % 10)]
  }

  /** The value of a string of decimal digits (most significant first). */
  function DigitsToNat(s: string): (n: nat)
    requires AllDigits(s)
    decreases |s|
  {
    if |s| == 0 then 0 else DigitsToNat(s[..|s| - 1]) * 10 + DigitValue(s[|s| - 1])
  }

  /** `String.valueOf(int)`: a minus sign for negative values, then the digits. */
  function ToString(n: int): (s: string)
    ensures |s| >= 1
    ensures s[0] == '-' <==> n < 0
    ensures n >= 0 ==> AllDigits(s)
    ensures n < 0 ==> AllDigits(s[1..])
  {
    if n < 0 then "-" + NatToDigits(-n) else NatToDigits(n)
  }

  /** Reading the digits back gives the number that was rendered. */
  lemma {:induction false} DigitsRoundTrip(n: nat)
    ensures DigitsToNat(NatToDigits(n)) == n
    decreases n
  {
    if n >= 10 {
      var prefix := NatToDigits(n / 10);
      var s := NatToDigits(n);
      assert s == prefix + [DigitChar(n % 10)];
      assert s[..|s| - 1] == prefix;
      DigitsRoundTrip(n / 10);
      assert DigitValue(s[|s| - 1]) == n % 10;
    }
  }

  /** Distinct integers are rendered as distinct strings, so a message that
      embeds an id names exactly one id. */
  lemma ToStringInjective(a: int, b: int)
    ensures ToString(a) == ToString(b) ==> a == b
  {
    if ToString(a) == ToString(b) {
      if a < 0 {
        assert b < 0;
        assert NatToDigits(-a) == ToString(a)[1..] == ToString(b)[1..] == NatToDigits(-b);
        DigitsRoundTrip(-a);
        DigitsRoundTrip(-b);
      } else {
        assert b >= 0;
        DigitsRoundTrip(a);
        DigitsRoundTrip(b);
      }
    }
  }
}

=== FILE: producto_controller.dfy ===
/** The product controller's endpoints (findAll, findById, insert, update,
    delete, downloadFile). Each endpoint is a pure function of the request and
    of what its collaborators answered (the product service, the file upload
    and download utilities). It returns an Exchange: the collaborator calls
    it made, in order, and what came out of the handler. */
module ProductoController {
  import opened Common
  import Decimal

  const OK := 200
  const CREATED := 201
  const NO_CONTENT := 204
  const BAD_REQUEST := 400
  const NOT_FOUND := 404
  const INTERNAL_SERVER_ERROR := 500

  /** Every listing is sorted by this property. */
  const SORT_KEY := "nombre"

  /** The route of the download endpoint, which insert points clients to. */
  const DOWNLOAD_PREFIX := "/productos/downloadFile/"

  datatype Producto = Producto(
    id: Option<int>,
    nombre: string,
    descripcion: string,
    stock: int,
    imagenProducto: string)

  /** One validation failure from the request binding. */
  datatype ObjectError = ObjectError(objectName: string, defaultMessage: string)

  /** An uploaded multipart file, by its client-side name and byte count. */
  datatype MultipartFile = MultipartFile(originalFilename: string, size: nat) {
    predicate IsEmpty() {
      size == 0
    }
  }

  datatype FileUploadResponse = FileUploadResponse(fileName: string, downloadURI: string, size: nat)

  /** A stored file resolved for download. */
  datatype Resource = Resource(filename: string)

  /** A value in a JSON response map. */
  datatype Value =
    | Str(text: string)
    | Strs(items: seq<string>)
    | Product(producto: Producto)
    | FileInfo(info: FileUploadResponse)

  datatype Body =
    | NoBody
    | Fields(fields: map<string, Value>)
    | Productos(productos: seq<Producto>)
    | Text(text: string)
    | Download(resource: Resource)

  datatype Response = Response(status: int, headers: map<string, string>, body: Body)

  /** What a handler produces: a response, the null a handler returns when it
      never assigned one, or an exception that escapes it. */
  datatype Outcome = Respond(response: Response) | NullResponse | Propagates(error: Exception)

  /** A call from the controller into a collaborator. */
  datatype Call =
    | FindAllSorted(sortKey: string)
    | FindAllPaged(page: int, size: int, sortKey: string)
    | FindProducto(id: int)
    | SaveFile(originalFilename: string)
    | SaveProducto(producto: Producto)
    | DeleteProducto(producto: Producto)
    | GetFileAsResource(fileCode: string)
  {
    /** Calls that change the store or the file directory. */
    predicate IsWrite() {
      SaveFile? || SaveProducto? || DeleteProducto?
    }
  }

  datatype Exchange = Exchange(calls: seq<Call>, outcome: Outcome)

  predicate Responds(x: Exchange, status: int) {
    x.outcome.Respond? && x.outcome.response.status == status
  }

  predicate NoWrites(calls: seq<Call>) {
    forall i | 0 <= i < |calls| :: !calls[i].IsWrite()
  }

  /** Two products that agree on everything but the identifier. */
  predicate SameButId(a: Producto, b: Producto) {
    a.nombre == b.nombre && a.descripcion == b.descripcion
    && a.stock == b.stock && a.imagenProducto == b.imagenProducto
  }

  function Empty(status: int): Response {
    Response(status, map[], NoBody)
  }

  function Json(status: int, fields: map<string, Value>): Response {
    Response(status, map[], Fields(fields))
  }

  // ---------------------------------------------------------------------
  // GET /productos

  /** Spring's `PageRequest.of` refuses a negative page index or a page size
      below one with IllegalArgumentException. */
  predicate PageRequestAccepts(page: int, size: int) {
    page >= 0 && size >= 1
  }

  /** `findAll`: paged when both `page` and `size` are given, otherwise the
      whole list; sorted by name either way. A failure in the paged branch
      answers 400, in the unpaged branch 204. `paged` and `sorted` are what
      the service's paged and sorted queries answer. */
  function FindAll(page: Option<int>, size: Option<int>,
                   paged: Result<seq<Producto>>, sorted: Result<seq<Producto>>): (x: Exchange)
    ensures x.outcome.Respond?
    ensures |x.calls| <= 1 && NoWrites(x.calls)
    ensures forall c | c in x.calls :: (c.FindAllSorted? || c.FindAllPaged?) && c.sortKey == SORT_KEY
    ensures (exists c | c in x.calls :: c.FindAllPaged?) ==> page.Some? && size.Some?
    ensures page.None? || size.None? ==> x.calls == [FindAllSorted(SORT_KEY)]
    ensures page.Some? && size.Some? ==>
      x.calls == if PageRequestAccepts(page.value, size.value)
                 then [FindAllPaged(page.value, size.value, SORT_KEY)] else []
    ensures page.Some? && size.Some? ==>
      x.outcome.response.status in {OK, BAD_REQUEST}
    ensures page.None? || size.None? ==>
      x.outcome.response.status in {OK, NO_CONTENT}
    ensures Responds(x, OK) <==>
      if page.Some? && size.Some?
      then PageRequestAccepts(page.value, size.value) && paged.Ok?
      else sorted.Ok?
    ensures Responds(x, OK) ==>
      x.outcome.response.body == Productos(if page.Some? && size.Some? then paged.value else sorted.value)
    ensures !Responds(x, OK) ==> x.outcome.response.body == NoBody
  {
    if page.Some? && size.Some? then
      if !PageRequestAccepts(page.value, size.value) then
        Exchange([], Respond(Empty(BAD_REQUEST)))
      else
        var calls := [FindAllPaged(page.value, size.value, SORT_KEY)];
        match paged
        case Ok(content) => Exchange(calls, Respond(Response(OK, map[], Productos(content))))
        case Raised(_) => Exchange(calls, Respond(Empty(BAD_REQUEST)))
    else
      var calls := [FindAllSorted(SORT_KEY)];
      match sorted
      case Ok(productos) => Exchange(calls, Respond(Response(OK, map[], Productos(productos))))
      case Raised(_) => Exchange(calls, Respond(Empty(NO_CONTENT)))
  }

  // ---------------------------------------------------------------------
  // GET /productos/{id}

  /** `findById`: 200 with `mensaje` and `producto` when found, 404 with
      `error` when the service answers null, 500 with `error` when it throws. */
  function FindById(id: int, found: Result<Option<Producto>>): (x: Exchange)
    ensures x.calls == [FindProducto(id)]
    ensures x.outcome.Respond? && x.outcome.response.body.Fields?
    ensures Responds(x, OK) <==> found.Ok? && found.value.Some?
    ensures Responds(x, NOT_FOUND) <==> found == Ok(None)
    ensures Responds(x, INTERNAL_SERVER_ERROR) <==> found.Raised?
    ensures Responds(x, OK) ==>
      && x.outcome.response.body.fields.Keys == {"mensaje", "producto"}
      && x.outcome.response.body.fields["producto"] == Product(found.value.value)
    ensures !Responds(x, OK) ==> x.outcome.response.body.fields.Keys == {"error"}
  {
    var calls := [FindProducto(id)];
    match found
    case Ok(Some(producto)) =>
      Exchange(calls, Respond(Json(OK, map[
        "mensaje" := Str("Se ha encontrado el producto con id: " + Decimal.ToString(id)),
        "producto" := Product(producto)])))
    case Ok(None) =>
      Exchange(calls, Respond(Json(NOT_FOUND, map[
        "error" := Str("No se ha encontrado el producto con id" + Decimal.ToString(id))])))
    case Raised(_) =>
      Exchange(calls, Respond(Json(INTERNAL_SERVER_ERROR, map["error" := Str("Error grave")])))
  }

  // ---------------------------------------------------------------------
  // Validation and file names, shared by insert and update

  /** The default message of every validation error, in order. */
  function DefaultMessages(errors: seq<ObjectError>): (messages: seq<string>)
    ensures |messages| == |errors|
    ensures forall i | 0 <= i < |errors| :: messages[i] == errors[i].defaultMessage
  {
    if |errors| == 0 then [] else [errors[0].defaultMessage] + DefaultMessages(errors[1..])
  }

  /** The 400 answer to a request whose body failed validation. */
  function ValidationFailed(errors: seq<ObjectError>): Exchange {
    Exchange([], Respond(Json(BAD_REQUEST, map["errores" := Strs(DefaultMessages(errors))])))
  }

  /** The name a stored upload goes by: generated code, a dash, original name. */
  function StoredName(fileCode: string, originalFilename: string): (name: string)
    ensures |name| == |fileCode| + 1 + |originalFilename|
    ensures name[..|fileCode|] == fileCode && name[|fileCode|] == '-'
    ensures name[|fileCode| + 1..] == originalFilename
  {
    fileCode + "-" + originalFilename
  }

  function UploadInfo(fileCode: string, file: MultipartFile): FileUploadResponse {
    FileUploadResponse(
      StoredName(fileCode, file.originalFilename),
      DOWNLOAD_PREFIX + StoredName(fileCode, file.originalFilename),
      file.size)
  }

  // ---------------------------------------------------------------------
  // POST /productos

  /** `insert`: validation errors answer 400 before anything is written. A
      non-empty file is stored first (`storedCode` is the code the upload
      utility generated, or its IOException, which escapes) and names the
      product's image. The product is then saved OUTSIDE the try, so a store
      failure escapes instead of answering 500; a null save result leaves the
      response null. */
  function Insert(producto: Producto, errors: seq<ObjectError>, file: MultipartFile,
                  storedCode: Result<string>, saved: Result<Option<Producto>>): (x: Exchange)
    ensures Responds(x, BAD_REQUEST) <==> |errors| > 0
    ensures |errors| > 0 ==>
      && x.calls == []
      && x.outcome.response.body.Fields?
      && x.outcome.response.body.fields.Keys == {"errores"}
      && x.outcome.response.body.fields["errores"].Strs?
      && |x.outcome.response.body.fields["errores"].items| == |errors|
      && forall i | 0 <= i < |errors| ::
           x.outcome.response.body.fields["errores"].items[i] == errors[i].defaultMessage
    ensures x.outcome.Respond? ==> x.outcome.response.status in {CREATED, BAD_REQUEST}
    ensures |errors| == 0 && !file.IsEmpty() ==>
      |x.calls| >= 1 && x.calls[0] == SaveFile(file.originalFilename)
    ensures |errors| == 0 && file.IsEmpty() ==> |x.calls| == 1 && x.calls[0].SaveProducto?
    ensures forall c | c in x.calls && c.SaveProducto? ::
      && (file.IsEmpty() || storedCode.Ok?)
      && c.producto.id == producto.id
      && c.producto.nombre == producto.nombre
      && c.producto.descripcion == producto.descripcion
      && c.producto.stock == producto.stock
      && c.producto.imagenProducto ==
           if file.IsEmpty() then producto.imagenProducto
           else StoredName(storedCode.value, file.originalFilename)
    ensures Responds(x, CREATED) <==> |errors| == 0 && (file.IsEmpty() || storedCode.Ok?) && saved.Ok? && saved.value.Some?
    ensures Responds(x, CREATED) ==>
      && x.outcome.response.body.Fields?
      && x.outcome.response.body.fields.Keys ==
           {"mensaje", "productoDB"} + (if file.IsEmpty() then {} else {"info del archivo"})
      && x.outcome.response.body.fields["productoDB"] == Product(saved.value.value)
      && (!file.IsEmpty() ==>
            var info := x.outcome.response.body.fields["info del archivo"];
            && info.FileInfo?
            && info.info.fileName == StoredName(storedCode.value, file.originalFilename)
            && info.info.downloadURI == DOWNLOAD_PREFIX + info.info.fileName
            && info.info.size == file.size)
    ensures x.outcome == NullResponse <==>
      |errors| == 0 && (file.IsEmpty() || storedCode.Ok?) && saved == Ok(None)
    ensures x.outcome.Propagates? ==>
      (!file.IsEmpty() && storedCode.Raised? && x.outcome.error == storedCode.error) ||
      (saved.Raised? && x.outcome.error == saved.error)
    ensures |errors| == 0 && !file.IsEmpty() && storedCode.Raised? ==>
      x == Exchange([SaveFile(file.originalFilename)], Propagates(storedCode.error))
    ensures |errors| == 0 && (file.IsEmpty() || storedCode.Ok?) ==>
      x.calls ==
        (if file.IsEmpty() then [] else [SaveFile(file.originalFilename)]) +
        [SaveProducto(if file.IsEmpty() then producto
                      else producto.(imagenProducto := StoredName(storedCode.value, file.originalFilename)))]
  {
    if |errors| > 0 then
      ValidationFailed(errors)
    else if !file.IsEmpty() && storedCode.Raised? then
      Exchange([SaveFile(file.originalFilename)], Propagates(storedCode.error))
    else
      var fileCalls := if file.IsEmpty() then [] else [SaveFile(file.originalFilename)];
      var toSave := if file.IsEmpty() then producto
                    else producto.(imagenProducto := StoredName(storedCode.value, file.originalFilename));
      var fileFields := if file.IsEmpty() then map[]
                        else map["info del archivo" := FileInfo(UploadInfo(storedCode.value, file))];
      var calls := fileCalls + [SaveProducto(toSave)];
      match saved
      case Raised(e) => Exchange(calls, Propagates(e))
      case Ok(None) => Exchange(calls, NullResponse)
      case Ok(Some(productoDB)) =>
        Exchange(calls, Respond(Json(CREATED, fileFields + map[
          "mensaje" := Str("El producto se ha creado correctamente."),
          "productoDB" := Product(productoDB)])))
  }

  // ---------------------------------------------------------------------
  // PUT /productos/{id}

  /** `update`: validation errors answer 400 before anything is written;
      otherwise the path id is bound onto the body and the body is saved
      (outside the try, as in insert). A non-null result answers 200 with
      `mensaje` and `producto`; a null result leaves the response null. */
  function Update(producto: Producto, errors: seq<ObjectError>, id: int,
                  saved: Result<Option<Producto>>): (x: Exchange)
    ensures Responds(x, BAD_REQUEST) <==> |errors| > 0
    ensures |errors| > 0 ==>
      && x.calls == []
      && x.outcome.response.body.Fields?
      && x.outcome.response.body.fields.Keys == {"errores"}
      && x.outcome.response.body.fields["errores"].Strs?
      && |x.outcome.response.body.fields["errores"].items| == |errors|
      && forall i | 0 <= i < |errors| ::
           x.outcome.response.body.fields["errores"].items[i] == errors[i].defaultMessage
    ensures x.outcome.Respond? ==> x.outcome.response.status in {OK, BAD_REQUEST}
    ensures |errors| == 0 ==>
      && |x.calls| == 1
      && x.calls[0].SaveProducto?
      && x.calls[0].producto.id == Some(id)
      && SameButId(x.calls[0].producto, producto)
    ensures Responds(x, OK) <==> |errors| == 0 && saved.Ok? && saved.value.Some?
    ensures Responds(x, OK) ==>
      && x.outcome.response.body.Fields?
      && x.outcome.response.body.fields.Keys == {"mensaje", "producto"}
      && x.outcome.response.body.fields["producto"] == Product(saved.value.value)
    ensures x.outcome == NullResponse <==> |errors| == 0 && saved == Ok(None)
    ensures x.outcome.Propagates? <==> |errors| == 0 && saved.Raised?
    ensures x.outcome.Propagates? ==> x.outcome.error == saved.error
  {
    if |errors| > 0 then
      ValidationFailed(errors)
    else
      var calls := [SaveProducto(producto.(id := Some(id)))];
      match saved
      case Raised(e) => Exchange(calls, Propagates(e))
      case Ok(None) => Exchange(calls, NullResponse)
      case Ok(Some(productoDB)) =>
        Exchange(calls, Respond(Json(OK, map[
          "mensaje" := Str("El producto se ha creado correctamente."),
          "producto" := Product(productoDB)])))
  }

  // ---------------------------------------------------------------------
  // DELETE /productos/{id}

  /** `delete`: looks the id up (outside any try); when found, deletes that
      very product and answers 204, otherwise answers 404 and deletes
      nothing. `deletion` is what the service's delete did. */
  function Delete(id: int, found: Result<Option<Producto>>, deletion: Result<()>): (x: Exchange)
    ensures |x.calls| >= 1 && x.calls[0] == FindProducto(id)
    ensures (exists c | c in x.calls :: c.DeleteProducto?) <==> found.Ok? && found.value.Some?
    ensures forall c | c in x.calls && c.DeleteProducto? :: c.producto == found.value.value
    ensures x.outcome != NullResponse
    ensures Responds(x, NO_CONTENT) <==> found.Ok? && found.value.Some? && deletion.Ok?
    ensures Responds(x, NOT_FOUND) <==> found == Ok(None)
    ensures x.outcome.Respond? ==> x.outcome.response.body == NoBody
    ensures found.Raised? ==> x.outcome == Propagates(found.error)
    ensures x.calls ==
      [FindProducto(id)] + (if found.Ok? && found.value.Some? then [DeleteProducto(found.value.value)] else [])
    ensures found.Ok? && found.value.Some? && deletion.Raised? ==>
      x.outcome == Propagates(deletion.error)
  {
    var lookup := [FindProducto(id)];
    match found
    case Raised(e) => Exchange(lookup, Propagates(e))
    case Ok(None) => Exchange(lookup, Respond(Empty(NOT_FOUND)))
    case Ok(Some(productoDelete)) =>
      var calls := lookup + [DeleteProducto(productoDelete)];
      assert DeleteProducto(productoDelete) in calls;
      match deletion
      case Raised(e) => Exchange(calls, Propagates(e))
      case Ok(_) => Exchange(calls, Respond(Empty(NO_CONTENT)))
  }

  // ---------------------------------------------------------------------
  // GET /productos/downloadFile/{fileCode}

  const ATTACHMENT_PREFIX := "attachment; filename=\""

  /** The Content-Disposition value that makes a client save the file: the
      file name, unescaped, between `attachment; filename="` and a closing quote. */
  function ContentDisposition(filename: string): (header: string)
    ensures |header| == |ATTACHMENT_PREFIX| + |filename| + 1
    ensures header[..|ATTACHMENT_PREFIX|] == ATTACHMENT_PREFIX
    ensures header[|ATTACHMENT_PREFIX|..|header| - 1] == filename
    ensures header[|header| - 1] == '"'
  {
    ATTACHMENT_PREFIX + filename + "\""
  }

  /** `downloadFile`: an IOException from the lookup answers 500, a null
      resource answers 404 with "File not found ", and a resource answers 200
      as an octet-stream attachment under the resource's file name. */
  function DownloadFile(fileCode: string, resource: Result<Option<Resource>>): (x: Exchange)
    ensures x.calls == [GetFileAsResource(fileCode)]
    ensures Responds(x, INTERNAL_SERVER_ERROR) <==> resource == Raised(IOException)
    ensures x.outcome.Propagates? <==> resource.Raised? && resource.error != IOException
    ensures Responds(x, NOT_FOUND) <==> resource == Ok(None)
    ensures Responds(x, NOT_FOUND) ==>
      x.outcome.response == Response(NOT_FOUND, map[], Text("File not found "))
    ensures Responds(x, INTERNAL_SERVER_ERROR) ==> x.outcome.response == Empty(INTERNAL_SERVER_ERROR)
    ensures Responds(x, OK) <==> resource.Ok? && resource.value.Some?
    ensures Responds(x, OK) ==>
      && x.outcome.response.body == Download(resource.value.value)
      && x.outcome.response.headers.Keys == {"Content-Type", "Content-Disposition"}
      && x.outcome.response.headers["Content-Type"] == "application/octet-stream"
      && x.outcome.response.headers["Content-Disposition"] == ContentDisposition(resource.value.value.filename)
  {
    var calls := [GetFileAsResource(fileCode)];
    match resource
    case Raised(IOException) => Exchange(calls, Respond(Empty(INTERNAL_SERVER_ERROR)))
    case Raised(e) => Exchange(calls, Propagates(e))
    case Ok(None) => Exchange(calls, Respond(Response(NOT_FOUND, map[], Text("File not found "))))
    case Ok(Some(r)) =>
      Exchange(calls, Respond(Response(OK, map[
        "Content-Type" := "application/octet-stream",
        "Content-Disposition" := ContentDisposition(r.filename)], Download(r))))
  }

  // ---------------------------------------------------------------------
  // Properties relating endpoints and the strings they compose

  /** The path variable the download route `/productos/downloadFile/{fileCode}`
      binds for a decoded request path: one non-empty segment after the prefix. */
  function DownloadRoute(path: string): (fileCode: Option<string>)
    ensures fileCode.Some? ==> DOWNLOAD_PREFIX + fileCode.value == path
    ensures fileCode.Some? ==> |fileCode.value| > 0 && '/' !in fileCode.value
  {
    if |path| > |DOWNLOAD_PREFIX| && path[..|DOWNLOAD_PREFIX|] == DOWNLOAD_PREFIX
       && '/' !in path[|DOWNLOAD_PREFIX|..]
    then
      assert DOWNLOAD_PREFIX + path[|DOWNLOAD_PREFIX|..] == path;
      Some(path[|DOWNLOAD_PREFIX|..])
    else None
  }

  /** Every single non-empty segment after the prefix is bound by the route. */
  lemma DownloadRouteBindsSegment(fileCode: string)
    requires |fileCode| > 0 && '/' !in fileCode
    ensures DownloadRoute(DOWNLOAD_PREFIX + fileCode) == Some(fileCode)
  {
  }

  /** A segment that an unencoded URI carries through routing unchanged. */
  predicate UriSafe(segment: string) {
    forall i | 0 <= i < |segment| :: IsSegmentChar(segment[i])
  }

  /** The characters section 3.3 of RFC 3986 allows unescaped in a path
      segment (unreserved, sub-delims, `:` and `@`), without `;`, which
      Spring treats as the start of matrix parameters. Anything else is
      rewritten by the client or refused by the server before routing. */
  predicate IsSegmentChar(c: char) {
    || 'a' <= c <= 'z' || 'A' <= c <= 'Z' || '0' <= c <= '9'
    || c in "-._~!$&'()*+,=:@"
  }

  /** A quoted-string as a client reads it (section 5.6.4 of RFC 9110), with
      its opening quote already consumed: characters up to the first unescaped
      quote, a backslash taking the next character literally. None when the
      closing quote is missing. */
  function ReadQuoted(s: string): (content: Option<string>)
    ensures content.Some? ==> |content.value| < |s|
    ensures '\\' !in s ==> (content.Some? <==> '"' in s)
    ensures '\\' !in s && content.Some? ==>
      '"' !in content.value && content.value + "\"" <= s
    decreases |s|
  {
    if |s| == 0 then None
    else if s[0] == '"' then Some("")
    else if s[0] == '\\' then
      if |s| < 2 then None
      else match ReadQuoted(s[2..])
           case None => None
           case Some(rest) => Some([s[1]] + rest)
    else
      match ReadQuoted(s[1..])
      case None => None
      case Some(rest) => Some([s[0]] + rest)
  }

  /** The file name a client reads out of a Content-Disposition value of the
      `attachment; filename="..."` form. */
  function AttachmentFilename(header: string): (filename: Option<string>)
    ensures filename.Some? ==>
      |header| > |ATTACHMENT_PREFIX| && header[..|ATTACHMENT_PREFIX|] == ATTACHMENT_PREFIX
  {
    if |header| >= |ATTACHMENT_PREFIX| && header[..|ATTACHMENT_PREFIX|] == ATTACHMENT_PREFIX
    then ReadQuoted(header[|ATTACHMENT_PREFIX|..])
    else None
  }

  /** A name without quote or backslash, followed by a closing quote, is read
      back whole whatever follows it. */
  lemma {:induction false} ReadQuotedPlainName(name: string, rest: string)
    requires '"' !in name && '\\' !in name
    ensures ReadQuoted(name + "\"" + rest) == Some(name)
    decreases |name|
  {
    var s := name + "\"" + rest;
    if |name| == 0 {
      assert s[0] == '"';
    } else {
      assert s[0] == name[0];
      assert s[1..] == name[1..] + "\"" + rest;
      ReadQuotedPlainName(name[1..], rest);
      assert [name[0]] + name[1..] == name;
    }
  }

  /** The download header names the resource's own file whenever that name
      is printable ASCII without quote or backslash. The server writes
      header values as ISO-8859-1, blanks control characters and drops a
      header holding wider characters, so only printable ASCII names reach
      the client unchanged. */
  lemma ContentDispositionRoundTrip(filename: string)
    requires forall i | 0 <= i < |filename| :: ' ' <= filename[i] <= '~'
    requires '"' !in filename && '\\' !in filename
    ensures AttachmentFilename(ContentDisposition(filename)) == Some(filename)
  {
    var header := ContentDisposition(filename);
    assert header[..|ATTACHMENT_PREFIX|] == ATTACHMENT_PREFIX;
    assert header[|ATTACHMENT_PREFIX|..] == filename + "\"" + "";
    ReadQuotedPlainName(filename, "");
  }

  /** The header is built without escaping, so a quote in the resource's
      name ends the name early: a client offered `a".png` saves it as `a`. */
  lemma QuoteInNameCutsItShort()
    ensures AttachmentFilename(ContentDisposition("a\".png")) == Some("a")
  {
    var header := ContentDisposition("a\".png");
    assert header[|ATTACHMENT_PREFIX|..] == "a" + "\"" + ".png\"";
    ReadQuotedPlainName("a", ".png\"");
  }

  /** Codes of one length (the upload utility's codes all have the same
      length) make the stored name determine both the code and the original
      name, so two uploads with distinct codes never share an image path. */
  lemma StoredNameDeterminesParts(code1: string, name1: string, code2: string, name2: string)
    requires |code1| == |code2|
    ensures StoredName(code1, name1) == StoredName(code2, name2) <==>
              code1 == code2 && name1 == name2
  {
  }

  /** A file accepted by `insert` can be fetched back: its download URI routes
      to the download endpoint with the stored name as the file code, and that
      stored name is the image path the product was saved with. */
  lemma InsertedFileIsDownloadable(producto: Producto, file: MultipartFile,
                                   fileCode: string, productoDB: Producto)
    requires !file.IsEmpty()
    requires UriSafe(fileCode) && UriSafe(file.originalFilename)
    ensures var x := Insert(producto, [], file, Ok(fileCode), Ok(Some(productoDB)));
      && Responds(x, CREATED)
      && x.outcome.response.body.fields["info del archivo"].FileInfo?
      && var info := x.outcome.response.body.fields["info del archivo"].info;
      && DownloadRoute(info.downloadURI) == Some(info.fileName)
      && x.calls[|x.calls| - 1] == SaveProducto(producto.(imagenProducto := info.fileName))
  {
  }

  /** The 200 message of `findById` ends with the requested id, and the
      messages for two different ids differ. */
  lemma FoundMessageNamesId(a: int, b: int, producto: Producto)
    requires a != b
    ensures var m := FindById(a, Ok(Some(producto))).outcome.response.body.fields["mensaje"];
      && m.Str?
      && |m.text| >= |Decimal.ToString(a)|
      && m.text[|m.text| - |Decimal.ToString(a)|..] == Decimal.ToString(a)
    ensures FindById(a, Ok(Some(producto))).outcome.response.body.fields["mensaje"] !=
            FindById(b, Ok(Some(producto))).outcome.response.body.fields["mensaje"]
  {
    var prefix := "Se ha encontrado el producto con id: ";
    assert (prefix + Decimal.ToString(a))[|prefix|..] == Decimal.ToString(a);
    assert (prefix + Decimal.ToString(b))[|prefix|..] == Decimal.ToString(b);
    Decimal.ToStringInjective(a, b);
  }

  /** The paged branch never looks at the unpaged query's answer, and the
      unpaged branch never looks at the paged query's answer. */
  lemma FindAllConsultsOneQuery(page: Option<int>, size: Option<int>,
                                paged1: Result<seq<Producto>>, paged2: Result<seq<Producto>>,
                                sorted1: Result<seq<Producto>>, sorted2: Result<seq<Producto>>)
    ensures page.Some? && size.Some? ==>
      FindAll(page, size, paged1, sorted1) == FindAll(page, size, paged1, sorted2)
    ensures page.None? || size.None? ==>
      FindAll(page, size, paged1, sorted1) == FindAll(page, size, paged2, sorted1)
  {
  }

  /** `update` overwrites whatever id the body carried with the path id, so
      the body's own id never matters. */
  lemma UpdateIgnoresBodyId(producto: Producto, bodyId: Option<int>, errors: seq<ObjectError>,
                            id: int, saved: Result<Option<Producto>>)
    ensures Update(producto.(id := bodyId), errors, id, saved) == Update(producto, errors, id, saved)
  {
  }

  /** `delete` and `findById` agree on one lookup result: delete answers 404
      exactly when findById does, and deletes exactly the product that
      findById returns with its 200. */
  lemma DeleteAgreesWithFindById(id: int, found: Result<Option<Producto>>, deletion: Result<()>)
    ensures Responds(Delete(id, found, deletion), NOT_FOUND) <==> Responds(FindById(id, found), NOT_FOUND)
    ensures Responds(FindById(id, found), OK) ==>
      var shown := FindById(id, found).outcome.response.body.fields["producto"].producto;
      Delete(id, found, deletion).calls == [FindProducto(id), DeleteProducto(shown)]
    ensures !Responds(FindById(id, found), OK) ==> NoWrites(Delete(id, found, deletion).calls)
  {
  }
}

=== FILE: user_service.dfy ===
/** The user service: accounts held in a store keyed by email, with add,
    findAll, deleteByEmail, findByEmail and update. Each operation is a pure
    function from the store before the call to its result and the store
    after it. */
module UserService {
  import opened Common

  datatype Role = ADMIN | USER

  /** A password as the service handles it: the raw value a client sent, or
      the output of the password encoder applied to an earlier value. The
      encoder is salted, so an encoding carries the salt it drew and is not a
      function of the raw value alone. */
  datatype Password = Plain(text: string) | Encoded(raw: Password, salt: nat)

  /** The encoder's `matches(raw, stored)`, with the arguments in the other
      order: `stored` is an encoding of `raw`. */
  predicate Matches(stored: Password, raw: Password) {
    stored.Encoded? && stored.raw == raw
  }

  /** The encoder's `encode(raw)`, drawing `salt` from its random source. */
  function Encode(raw: Password, salt: nat): (p: Password)
    ensures Matches(p, raw)
  {
    Encoded(raw, salt)
  }

  datatype User = User(
    id: int,
    firstName: string,
    lastName: string,
    email: string,
    password: Password,
    role: Role)

  /** The user table, looked up by email. */
  type Store = map<string, User>

  /** The store's unique constraint on email: each account sits under its own
      email, so no two accounts share one. */
  predicate KeyedByEmail(s: Store) {
    forall e | e in s :: s[e].email == e
  }

  /** No stored password is the raw value a client sent. */
  predicate NoPlaintext(s: Store) {
    forall e | e in s :: s[e].password.Encoded?
  }

  predicate Valid(s: Store) {
    KeyedByEmail(s) && NoPlaintext(s)
  }

  /** `add`: refuses an email already in the store (returns null and writes
      nothing); otherwise stores the user with the password encoded. The
      store assigns the identifier `generatedId` when it saves. */
  function Add(s: Store, user: User, salt: nat, generatedId: int): (r: (Option<User>, Store))
    ensures user.email in s ==> r.0 == None && r.1 == s
    ensures user.email !in s ==>
      && r.0.Some?
      && r.0.value.id == generatedId
      && r.0.value.firstName == user.firstName
      && r.0.value.lastName == user.lastName
      && r.0.value.email == user.email
      && r.0.value.role == user.role
      && Matches(r.0.value.password, user.password)
      && r.1.Keys == s.Keys + {user.email}
      && r.1[user.email] == r.0.value
      && (forall e | e in s :: r.1[e] == s[e])
  {
    if user.email in s then
      (None, s)
    else
      var saved := user.(id := generatedId, password := Encode(user.password, salt));
      (Some(saved), s[user.email := saved])
  }

  /** `findAll`: every stored account, once each, in no particular order. */
  method FindAll(s: Store) returns (users: seq<User>)
    ensures |users| == |s|
    ensures forall i | 0 <= i < |users| :: users[i] in s.Values
    ensures forall e | e in s :: s[e] in users
    ensures KeyedByEmail(s) ==>
      forall i, j | 0 <= i < j < |users| :: users[i].email != users[j].email
  {
    users := [];
    var remaining := s.Keys;
    while remaining != {}
      invariant remaining <= s.Keys
      invariant |users| + |remaining| == |s|
      invariant forall i | 0 <= i < |users| :: users[i] in s.Values
      invariant forall e | e in s.Keys - remaining :: s[e] in users
      invariant KeyedByEmail(s) ==>
        forall i | 0 <= i < |users| :: users[i].email in s.Keys - remaining
      invariant KeyedByEmail(s) ==>
        forall i, j | 0 <= i < j < |users| :: users[i].email != users[j].email
      decreases remaining
    {
      var e :| e in remaining;
      users := users + [s[e]];
      remaining := remaining - {e};
    }
  }

  /** `deleteByEmail`: the account under `email` is gone, nothing else changes. */
  function DeleteByEmail(s: Store, email: string): (r: Store)
    ensures email !in r
    ensures r.Keys == s.Keys - {email}
    ensures forall e | e in r :: r[e] == s[e]
  {
    s - {email}
  }

  /** `findByEmail`: the stored account, or UsernameNotFoundException. */
  function FindByEmail(s: Store, email: string): (r: Result<User>)
    ensures r.Ok? <==> email in s
    ensures r.Ok? ==> r.value == s[email]
    ensures r.Raised? ==>
      r.error == UsernameNotFoundException("No existe el usuario con el email: " + email)
  {
    if email in s then Ok(s[email])
    else Raised(UsernameNotFoundException("No existe el usuario con el email: " + email))
  }

  /** `update`: finds the account by the argument's email (not found raises
      and writes nothing), then replaces first name, last name and role,
      re-encodes the new password, and keeps the stored id and email. */
  function Update(s: Store, user: User, salt: nat): (r: (Result<User>, Store))
    ensures user.email !in s ==>
      && r.0 == Raised(UsernameNotFoundException("No existe user con ese email"))
      && r.1 == s
    ensures user.email in s ==>
      && r.0.Ok?
      && r.0.value.id == s[user.email].id
      && r.0.value.email == s[user.email].email
      && r.0.value.firstName == user.firstName
      && r.0.value.lastName == user.lastName
      && r.0.value.role == user.role
      && Matches(r.0.value.password, user.password)
      && r.1.Keys == s.Keys
      && r.1[user.email] == r.0.value
      && (forall e | e in s && e != user.email :: r.1[e] == s[e])
  {
    if user.email !in s then
      (Raised(UsernameNotFoundException("No existe user con ese email")), s)
    else
      var existing := s[user.email];
      var updated := existing.(
        firstName := user.firstName,
        lastName := user.lastName,
        password := Encode(user.password, salt),
        role := user.role);
      (Ok(updated), s[user.email := updated])
  }

  // ---------------------------------------------------------------------
  // Properties relating several calls, and the store invariant.

  /** Keying by email is the uniqueness constraint: two distinct stored
      accounts never share an email. */
  lemma KeyedByEmailMeansUniqueEmails(s: Store, a: User, b: User)
    requires KeyedByEmail(s)
    requires a in s.Values && b in s.Values && a.email == b.email
    ensures a == b
  {
  }

  lemma AddPreservesValid(s: Store, user: User, salt: nat, generatedId: int)
    requires Valid(s)
    ensures Valid(Add(s, user, salt, generatedId).1)
  {
  }

  lemma UpdatePreservesValid(s: Store, user: User, salt: nat)
    requires Valid(s)
    ensures Valid(Update(s, user, salt).1)
  {
  }

  lemma DeleteByEmailPreservesValid(s: Store, email: string)
    requires Valid(s)
    ensures Valid(DeleteByEmail(s, email))
  {
  }

  /** Adding a second account with an email already used is refused and
      leaves exactly one row for that email. */
  lemma SecondAddWithSameEmailRejected(
    s: Store, first: User, second: User, salt1: nat, salt2: nat, id1: int, id2: int)
    requires first.email == second.email
    ensures var s1 := Add(s, first, salt1, id1).1;
      && Add(s1, second, salt2, id2) == (None, s1)
      && |s1| == |s| + (if first.email in s then 0 else 1)
  {
  }

  /** What `add` stored is what `findByEmail` returns afterwards, and its
      password matches the raw one that was supplied. */
  lemma AddThenFindByEmail(s: Store, user: User, salt: nat, generatedId: int)
    requires user.email !in s
    ensures var (added, s1) := Add(s, user, salt, generatedId);
      && FindByEmail(s1, user.email) == Ok(added.value)
      && Matches(FindByEmail(s1, user.email).value.password, user.password)
  {
  }

  /** After `deleteByEmail`, `findByEmail` of the same email raises. */
  lemma DeleteThenFindByEmail(s: Store, email: string)
    ensures FindByEmail(DeleteByEmail(s, email), email).Raised?
  {
  }

  /** `update` never changes any stored account's email or id, nor which
      emails are in the store. */
  lemma UpdateKeepsIdentities(s: Store, user: User, salt: nat)
    ensures var s1 := Update(s, user, salt).1;
      && s1.Keys == s.Keys
      && forall e | e in s :: s1[e].email == s[e].email && s1[e].id == s[e].id
  {
  }

  /** The encoder is salted: adding one user under two different salts
      stores two different passwords, and both match the supplied one. */
  lemma AddIsSalted(s: Store, user: User, salt1: nat, salt2: nat, generatedId: int)
    requires user.email !in s
    requires salt1 != salt2
    ensures var s1 := Add(s, user, salt1, generatedId).1;
            var s2 := Add(s, user, salt2, generatedId).1;
      && s1 != s2
      && s1[user.email].password != s2[user.email].password
      && Matches(s1[user.email].password, user.password)
      && Matches(s2[user.email].password, user.password)
  {
  }
}
